=== FILE: README.md ===
# Feedback-classification pipeline: a Dafny model of its core

The repository classifies user feedback with a hosted language model. It
audits each classification and rewrites its own classification instruction
until the audit is satisfied. It also ships two small utilities: a parser
that turns a Slack export into `{userId, contents}` records, and a counter
that reports how many items each category of a classification file holds.

This project models the logic of those three parts as pure Dafny functions
and methods, and proves their properties.

| module | file | models |
|---|---|---|
| `AutoFix` | `autofix.dfy` | `main_process`: the bounded classify / audit / repair loop, with `evaluate_result`'s parsing fallback and the artifact names |
| `InstructionFile` | `instruction_file.dfy` | `update_system_instruction`: the `re.sub` that rewrites `SYSTEM_INSTRUCTION = """..."""` in the instruction file, and reading that value back |
| `SlackParser` | `slack_parser.dfy` | `remove_channel_status_messages`, `extract_user_id_and_contents`, `parse_slack_messages`, `generate_filename` |
| `CategoryCount` | `category_count.dfy` | the counting, total and percentage part of `count_items_by_category` |
| `Text` | `text.dfy` | `str.strip`, substring search, and the ASCII whitespace, digit and case classes the patterns use |
| `Seqs`, `Options` | `seqs.dfy`, `options.dfy` | `FlatMap`, counting, and `Option` |

## How the loop is modelled

The three model calls are fields of an `Oracles` value:

- classification;
- audit;
- instruction repair.

So are:

- `json.loads` on the audit text;
- the success of the store write;
- the clock.

Each oracle is a total function. All but `parseJson` receive the round
number, so two rounds may get different answers to the same question;
`parseJson` depends on the audit text alone. This stands in for
the model's nondeterminism.

The instruction store is a single string. `MainProcess` returns a `Run`,
which holds:

- the rounds played;
- the final counter;
- how the run ended: converged, store write failed, or budget spent;
- the final store;
- whether the "maximum reached" notice prints;
- the event trace.

The event trace lists, in order, every model call, artifact write and store
write. The file-level substitution that a store write performs is proved
separately in `InstructionFile`.

### What the loop does at its edges

- **Repair on the final round.** Every round that finds 3 or more issues
  makes a repair call and a store write, the last round included
  (autoFixPrompt.py:150-161). A run whose `n` rounds all find 3 or more
  issues makes `n` repair calls and `n` store writes. `MainProcess` states
  that on budget exhaustion the number of repair calls and store writes
  equals the number of rounds.
- **Unparsable audit text.** When `json.loads` fails, `evaluate_result`
  returns `([], "")` (autoFixPrompt.py:53-59). The loop reads the empty
  issue list as fewer than 3 issues and stops as converged
  (`EvaluateResult`).
- **The closing notice.** The "maximum reached" notice prints whenever the
  final counter is at least `max_iterations` (autoFixPrompt.py:167-168).
  That includes a run that converged in its last round, and any
  `max_iterations <= 0`.

## Model

| member | source | states |
|---|---|---|
| AutoFix.MainProcess | autoFixPrompt.py:104-168 | At most `maxIterations` rounds run, and none when it is `<= 0`. Rounds are numbered 1, 2, … and the counter equals the number of rounds. Round 1 classifies with the imported instruction; every later round classifies with the text the previous round stored. The run converges exactly when its last round found fewer than 3 issues, and reports that round's file. It stops on a failed store write exactly when the last round's write failed. Otherwise the budget was spent and every round stored a new instruction. One classification call and one classification and one audit artifact are made per round. On budget exhaustion, repair calls = store writes = rounds. A converged run's last event is the audit artifact; a failed run's last event is the failed store write, so no classification follows it. The notice prints iff counter >= `max_iterations`. |
| AutoFix.PlayRound | autoFixPrompt.py:112-161 | One round follows the oracles. It classifies with the given instruction and the fixed payload, saves `result-<stamp>.json`, audits the text and saves `<file>_eval.json`. Only when there are 3 or more issues does it call repair, save `<file>_fixer.txt` and then write the store, in that order. Its events are 7 in that case and 4 otherwise. |
| AutoFix.PlayStep | autoFixPrompt.py:111-165 | Appending a round played with the right index and instruction preserves the loop's numbering and chaining. It moves the outcome to converged, still running, or store failed according to the round's fix. |
| AutoFix.EvaluateResult | autoFixPrompt.py:53-59 | Text that does not parse to an object yields no issues and an empty audit text, which is below the threshold. The empty text counts as `{}`. An object yields its `issues` list, or `[]` without one, together with the audit text unchanged. A non-empty issue list always comes from a parsed object. |
| AutoFix.TraceCounts | autoFixPrompt.py:129-161 | Over any sequence of rounds, the trace holds one classification call and one classification and one audit artifact per round. It holds one repair call, one fixer artifact and one store write per round that asked for a repair, and no others. |
| AutoFix.ObservedTrace | autoFixPrompt.py:144-165 | From how a run ended: the artifact counts; repair calls = store writes = rounds when every round stored; and the last event of a converged or failed run. |
| AutoFix.SamePayload | autoFixPrompt.py:129 | Every classification call of a run sends the same payload `''`. |
| AutoFix.TraceEndsWithLastRound | autoFixPrompt.py:111-165 | The trace of a run ends with the events of its last round. |
| InstructionFile.UpdateSystemInstruction | autoFixPrompt.py:61-83 | Returns true exactly when the file can be read and written. On failure the model leaves the file as it was; a write that fails after the emptying `open` is listed under "Left out". A file with no `SYSTEM_INSTRUCTION = """` is left as it was. In a file whose first assignment is at `pre`, the text before it is kept, that assignment gets the new text between the same delimiters, and the rest is rewritten the same way. When the new text contains no `"""`, does not end in a quote and contains no carriage return (a backslash is already excluded), reading the updated file yields exactly the new text. |
| InstructionFile.SubAll | autoFixPrompt.py:70-73 | The `re.sub` of the assignment pattern with a literal replacement. A string in which no span starts anywhere is returned unchanged. Its companions are RewriteFirstAssignment (the first assignment is replaced and the rest rewritten), NoSpanUnchanged and SubAllCopiesPrefix. |
| InstructionFile.ReadInstruction | autoFixPrompt.py:119-121 | The raw text of the first instruction literal, which is what the reloaded module binds when it has no backslash and no carriage return. It is none exactly when no span starts anywhere in the file, and a found value is no longer than the file. Its companion UpdateThenRead proves that a rewritten file reads back as the new text. |
| InstructionFile.RewriteFirstAssignment | autoFixPrompt.py:70-73 | In a file whose first assignment is at `pre`, the text before it is kept unchanged. The shortest span, up to the first closing `"""`, is replaced, and the rest of the file is processed the same way. |
| InstructionFile.NoSpanUnchanged | autoFixPrompt.py:70-73 | A file with no `SYSTEM_INSTRUCTION = """` is left exactly as it was, and reading it finds no instruction. |
| InstructionFile.SubAllCopiesPrefix | autoFixPrompt.py:73 | Where no span starts in the first `n` characters, the substitution copies them unchanged. |
| InstructionFile.UpdateThenRead | autoFixPrompt.py:116-121 | After the rewrite, re-reading the file yields exactly the new instruction, provided the new text contains no `"""`, does not end in a quote, and contains no backslash and no carriage return. This is what the next round classifies with. |
| InstructionFile.ReadNoneIff | autoFixPrompt.py:119-121 | Reading finds no instruction exactly when no span starts anywhere in the file. |
| SlackParser.CleanLines | csvToJsonSlackMessageParser.py:63 | Every line is stripped and the blank ones are dropped. The result is empty iff every line is blank. Each kept line is non-empty and already stripped. |
| SlackParser.CleanLinesSingle | csvToJsonSlackMessageParser.py:63 | A single line gives nothing when it strips to the empty string, and otherwise exactly its stripped text. |
| SlackParser.CleanLinesAppend | csvToJsonSlackMessageParser.py:63 | Cleaning keeps input order: the cleaned lines of `xs + ys` are those of `xs` followed by those of `ys`. |
| SlackParser.NonStatus | csvToJsonSlackMessageParser.py:13-36 | A message survives iff none of the ten join/leave phrases occurs in it, ignoring case. There are no more survivors than input messages. |
| SlackParser.NonStatusAppend | csvToJsonSlackMessageParser.py:26-36 | The survivors keep their input order: filtering two batches gives the first batch's survivors followed by the second's. |
| SlackParser.NonStatusSingle | csvToJsonSlackMessageParser.py:27-34 | A single message is dropped exactly when it is a join/leave notice, and kept unchanged otherwise. |
| SlackParser.CheckStatusMessage | csvToJsonSlackMessageParser.py:28-32 | Trying the phrases in order and stopping at the first match returns true iff some phrase occurs in the message. |
| SlackParser.RemoveChannelStatusMessages | csvToJsonSlackMessageParser.py:7-36 | The loop keeps exactly the non-status messages, in order. |
| SlackParser.FirstUserIdMatch | csvToJsonSlackMessageParser.py:43 | Returns the leftmost position where `User ID:`, optional whitespace and a digit occur, or none when there is no such position. |
| SlackParser.DigitRun | csvToJsonSlackMessageParser.py:43 | The `\d+` capture is the longest all-digit prefix, and it is non-empty when a digit comes first. |
| SlackParser.UserIdOf | csvToJsonSlackMessageParser.py:43-47 | Returns none iff `User ID:\s*\d` matches nowhere. Otherwise it returns the digits captured by the leftmost match, which are non-empty and all digits. |
| SlackParser.ReportContents | csvToJsonSlackMessageParser.py:50-54 | Returns none iff there is no `제보 내용:` followed later by `첨부 파일:`. Otherwise it returns the stripped text between the first report label and the first attachment label after it. |
| SlackParser.ExtractUserIdAndContents | csvToJsonSlackMessageParser.py:38-56 | Returns `(None, None)` exactly when the id or the report span is missing. Otherwise it returns the pair of the two captures. |
| SlackParser.Records | csvToJsonSlackMessageParser.py:72-81 | There is at most one record per message. Every record has a non-empty all-digit id and non-empty contents. |
| SlackParser.RecordsSingle | csvToJsonSlackMessageParser.py:74-79 | A message yields one record iff it has a user id and a report span with non-empty stripped contents, and none otherwise. That record is `{userId, contents}` built from the captured id and the stripped report contents. |
| SlackParser.RecordsAppend | csvToJsonSlackMessageParser.py:73-79 | Records come out in input order: the records of `xs + ys` are those of `xs` followed by those of `ys`. |
| SlackParser.ParseSlackMessages | csvToJsonSlackMessageParser.py:58-81 | Input that is all blank gives `[]`. Otherwise the output is the records of the cleaned, non-status messages, in order, no more numerous than they are, and each well formed. |
| SlackParser.GenerateFilename | csvToJsonSlackMessageParser.py:83-91 | A non-empty given path is returned unchanged. Otherwise the name is the timestamp followed by `-parsed-list.json`. |
| Text.Strip | csvToJsonSlackMessageParser.py:54 | The result is a contiguous piece of the input with only whitespace cut from either end. It starts and ends with non-whitespace, and it is empty iff the input is all whitespace. |
| Text.FindFrom | csvToJsonSlackMessageParser.py:50 | Returns the least index at or after `from` where the pattern occurs, or none iff it occurs nowhere there. |
| CategoryCount.CountItemsByCategory | count.py:22-31 | There is one entry per block, in block order. The category defaults to `"알 수 없음"` and a missing item list counts 0. The total equals both the sum of the entries and the sum of the list lengths. |
| CategoryCount.Share | count.py:43 | The share is count·100/total exactly, lies between 0 and 100 when count <= total, and is never negative. |
| CategoryCount.CategoryReport | count.py:33-47 | The "no items" report is produced iff the total is 0, iff every block's list is missing or empty. Otherwise there is one line per block with its category, count and share, and the shares sum to exactly 100. |
| CategoryCount.TotalZeroIffEmpty | count.py:34-36 | The total is 0 iff every block's item list is missing or empty. |
| CategoryCount.SharesSumToHundred | count.py:42-47 | As exact rationals, the per-category shares add up to the 100% printed on the total line. |
| CategoryCount.TotalCountsEveryListing | count.py:26-31 | Items are not de-duplicated: one item listed under each of `n` categories makes a total of `n`, counted once per category. |

## Left out

- The three model calls (`generate_classification_result`, the audit call
  in `evaluate_result`, `generate_improved_instruction`) are oracles. Their
  prompts and their content are not modelled.
- `analyzeAndEvaluate.py` is not part of this model. It is a straight-line
  script of model calls and file writes.
- `evalSystemInstruction.py` is constant prompt text and is not part of this
  model. It embeds the classification instruction once, at import, and is
  never reloaded. So the audit rules stay fixed across rounds, which is why
  the audit oracle does not take the current instruction.
- File I/O is not modelled as I/O:
  - An artifact write is an event in the trace. Its own failure is not
    modelled.
  - In `InstructionFile`, reading and writing the instruction file are the
    two flags of `FileState`. Any exception there makes the update return
    false.
  - InstructionFile.UpdateSystemInstruction leaves the file untouched when
    the write fails. The code opens the file with `"w"`, which empties it
    before `f.write` (autoFixPrompt.py:76-77). A write or flush that fails
    after that is caught at lines 81-83, so the function returns false and
    leaves the file empty or partly written. That state is not modelled.
  - `json.load` and `json.dump` are not modelled. The argparse `main`
    functions, `save_to_json`, and standard-input reading are left out too.
- An exception from a model call is not modelled. The code does not catch
  it, so the whole run ends.
- `datetime.now()` is not modelled. The timestamp is an opaque string per
  round, so two rounds within one second would reuse a file name.
  `GenerateFilename` takes its timestamp as a parameter.
- `importlib.reload` is modelled as reading the store. The value a reloaded
  module binds is modelled by `ReadInstruction`, which takes the first
  assignment in the file. Python binds the last one. After an update, every
  assignment holds the same text, so the two agree on the files the loop
  writes.
- AutoFix.MainProcess: treats a successful store write as storing the
  repair text verbatim, so the next round classifies with exactly that text.
  The file-level update guarantees this only when the text contains no
  backslash, no carriage return, no `"""`, does not end in a quote, and the
  file has a first assignment (`InstructionFile.UpdateSystemInstruction`).
  With a backslash, `re.sub` rewrites escapes such as `\n`, or raises on one
  such as `\d` so the update returns false. A carriage return comes back
  from the reload as a newline. With a `"""` or a trailing quote the
  rewritten file usually no longer compiles: the reload at
  autoFixPrompt.py:120 raises `SyntaxError`, which `main_process` does not
  catch, so the run ends. The loop's store is not linked to
  `InstructionFile`.
- AutoFix.MainProcess: the repair oracle always returns a string. When
  the model's reply has no text, `improved_instruction` is `None`
  (autoFixPrompt.py:102). The code then writes `""` to the fixer file
  (line 158), formats `None` into the file as `SYSTEM_INSTRUCTION =
  """None"""` (line 71) and reports success. So the next round classifies
  with the text `None`. This run is not modelled.
- InstructionFile.UpdateSystemInstruction: requires the new text to contain
  no backslash. `re.sub` would process escapes in the replacement, and the
  model inserts it literally.
- InstructionFile.UpdateThenRead: requires the new text to contain no `"""`
  and not end in a quote. A text like that would end the rewritten
  assignment early. It also requires no backslash and no carriage return,
  which the compiled literal would decode.
- InstructionFile.ReadInstruction: returns the raw characters of the
  literal. Compiling the file decodes backslash escapes (`\t` binds a tab)
  and turns `\r\n` and a lone `\r` into `\n`. So the raw text equals what
  Python binds only when it has no backslash and no carriage return. That
  decoding is not modelled.
- AutoFix.EvaluateResult: a JSON `issues` value that is `null`, a string or
  an object is not modelled. `len` of those raises or counts characters or
  keys. The model treats `issues` as a list of issues or as absent.
- CategoryCount.CountItemsByCategory: a `category` that is `null`, and an
  `items` value that is `null` or not a list, are not modelled. The code
  prints a `null` category as `None`. An `items` value that is `null`, a
  number or a boolean makes `len` raise. A string or an object does not
  raise: `len` counts its characters or its keys.
- CategoryCount.CategoryReport: percentages are exact rationals, not
  floating point. The `:.1f` rounding of the printed text is not modelled.
- Text.Strip, SlackParser.UserIdOf and SlackParser.NonStatus use ASCII
  character classes:
  - whitespace is space, tab, newline, carriage return, vertical tab and
    form feed, which is `\s` under `re.ASCII`;
  - digits are `0`–`9`;
  - case-insensitivity is ASCII lower-casing.

  Python's `str.strip`, `\s`, `\d` and `re.IGNORECASE` use the wider
  Unicode classes. For example, the ASCII separators `\x1c`–`\x1f` and a
  non-breaking space are stripped by Python and kept here.
- The printed progress messages are left out. Only the "maximum reached"
  notice is modelled, as `Run.maxNotice`.

=== FILE: autofix.dfy ===
/** The self-correcting refinement loop: classify the feedback with the
    current instruction, audit the classification, and when the audit finds
    three or more issues have the model rewrite the instruction, store it and
    try again, for at most `maxIterations` rounds.

    The three model calls, the JSON parser, the store write and the clock are
    oracles: total functions supplied by the caller.  Each takes the round
    number, so two rounds may get different answers to the same question. */
module AutoFix {
  import opened Options
  import opened Seqs

  /** A round converges when its audit finds fewer issues than this. */
  const Threshold: nat := 3

  /** The feedback sent to the classifier: the same empty string every round. */
  const Payload: string := ""

  /** `result-<timestamp>.json`, the classification artifact of a round. */
  function ResultName(stamp: string): string {
    "result-" + stamp + ".json"
  }

  const EvalSuffix: string := "_eval.json"
  const FixerSuffix: string := "_fixer.txt"

  /** One audit finding, with the fields the audit instruction asks for. */
  datatype Issue = Issue(userId: string, contents: string, originalCategory: string,
                         issueType: string, reason: string, recommendation: string)

  /** What `json.loads` makes of the audit text, as far as `.get("issues", [])`
      cares: not JSON at all, JSON but not an object (so `.get` raises), or an
      object with or without an `issues` list. */
  datatype EvalDoc = NotJson | NotAnObject | EvalObject(issues: Option<seq<Issue>>)

  /** The pair `evaluate_result` returns: the issue list and the audit text
      handed on to the repair call. */
  datatype Evaluation = Evaluation(issues: seq<Issue>, evalResult: string)

  /** The audit text parses to an object (the empty text counts as `{}`). */
  predicate Parsed(evalText: string, parse: string -> EvalDoc) {
    evalText == "" || parse(evalText).EvalObject?
  }

  /** The parsing half of `evaluate_result`.  When parsing fails the result
      is an empty issue list and an empty audit text, which the loop reads as
      convergence. */
  function EvaluateResult(evalText: string, parse: string -> EvalDoc): (r: Evaluation)
    ensures !Parsed(evalText, parse) ==> r == Evaluation([], "")
    ensures !Parsed(evalText, parse) ==> |r.issues| < Threshold
    ensures r.evalResult == "" || r.evalResult == evalText
    ensures r.issues != [] ==> evalText != "" && parse(evalText) == EvalObject(Some(r.issues))
    ensures evalText != "" && parse(evalText).EvalObject? ==>
              r.evalResult == evalText && r.issues == parse(evalText).issues.GetOr([])
  {
    if evalText == "" then Evaluation([], evalText)
    else
      match parse(evalText)
      case EvalObject(issues) => Evaluation(issues.GetOr([]), evalText)
      case _ => Evaluation([], "")
  }

  /** The collaborators of one run. */
  datatype Oracles = Oracles(
    classify: (nat, string, string) -> string,  // round, instruction, payload -> classification text
    evaluate: (nat, string) -> string,          // round, classification text -> audit text
    parseJson: string -> EvalDoc,               // json.loads on the audit text
    repair: (nat, string, string) -> string,    // round, instruction, audit text -> new instruction
    storeWrite: (nat, string) -> bool,          // round, new instruction -> update_system_instruction result
    stamp: nat -> string                        // round -> timestamp in the artifact name
  )

  /** The repair step of a round: the new instruction and whether the store
      accepted it. */
  datatype Fix = Fix(improved: string, stored: bool)

  /** The record of one round. */
  datatype Round = Round(index: nat, instruction: string, response: string, filename: string,
                         evalText: string, evaluation: Evaluation, fix: Option<Fix>)

  datatype Artifact = ClassificationArtifact | EvaluationArtifact | FixerArtifact

  /** The externally visible steps of a run, in the order they happen. */
  datatype Event =
    | Classify(round: nat, instruction: string, payload: string)
    | Evaluate(round: nat, response: string)
    | Repair(round: nat, instruction: string, evalResult: string)
    | Save(kind: Artifact, name: string, text: string)
    | StoreWrite(round: nat, text: string, ok: bool)

  /** How a run ends: converged on a result file, stopped because the store
      could not be updated, or left the loop because the budget was spent. */
  datatype Outcome = Converged(finalResult: string) | StoreFailed | BudgetSpent

  /** Everything a run produces.  `iteration` is the final counter value and
      `maxNotice` whether the "maximum reached" line is printed. */
  datatype Run = Run(rounds: seq<Round>, trace: seq<Event>, iteration: nat,
                     outcome: Outcome, store: string, maxNotice: bool)

  /** The events of one round, in order: classify, save the result, evaluate,
      save the audit; and when the round did not converge, repair, save the
      fixer output, write the store. */
  function RoundEvents(r: Round): seq<Event> {
    [ Classify(r.index, r.instruction, Payload),
      Save(ClassificationArtifact, r.filename, r.response),
      Evaluate(r.index, r.response),
      Save(EvaluationArtifact, r.filename + EvalSuffix, r.evalText) ]
    + match r.fix
      case None => []
      case Some(f) =>
        [ Repair(r.index, r.instruction, r.evaluation.evalResult),
          Save(FixerArtifact, r.filename + FixerSuffix, f.improved),
          StoreWrite(r.index, f.improved, f.stored) ]
  }

  /** The trace of a sequence of rounds. */
  function Trace(rounds: seq<Round>): seq<Event> {
    FlatMap(RoundEvents, rounds)
  }

  /** Round `r` is what the oracles produce for its index and instruction, and
      it asks for a repair exactly when the audit found enough issues. */
  predicate FollowsOracles(env: Oracles, r: Round) {
    && r.response == env.classify(r.index, r.instruction, Payload)
    && r.filename == ResultName(env.stamp(r.index))
    && r.evalText == env.evaluate(r.index, r.response)
    && r.evaluation == EvaluateResult(r.evalText, env.parseJson)
    && (r.fix.Some? <==> |r.evaluation.issues| >= Threshold)
    && (r.fix.Some? ==>
          && r.fix.value.improved == env.repair(r.index, r.instruction, r.evaluation.evalResult)
          && r.fix.value.stored == env.storeWrite(r.index, r.fix.value.improved))
  }

  /** A round that repaired and stored its new instruction. */
  predicate Stored(r: Round) {
    r.fix.Some? && r.fix.value.stored
  }

  predicate IsClassify(e: Event) { e.Classify? }
  predicate IsRepair(e: Event) { e.Repair? }
  predicate IsStoreWrite(e: Event) { e.StoreWrite? }
  predicate IsClassificationSave(e: Event) { e.Save? && e.kind == ClassificationArtifact }
  predicate IsEvaluationSave(e: Event) { e.Save? && e.kind == EvaluationArtifact }
  predicate IsFixerSave(e: Event) { e.Save? && e.kind == FixerArtifact }
  predicate Repaired(r: Round) { r.fix.Some? }

  /** Per run: one classification call, one classification artifact and one
      audit artifact per round; one repair call, one fixer artifact and one
      store write per round that did not converge. */
  lemma {:induction false} TraceCounts(rounds: seq<Round>)
    ensures Count(IsClassify, Trace(rounds)) == |rounds|
    ensures Count(IsClassificationSave, Trace(rounds)) == |rounds|
    ensures Count(IsEvaluationSave, Trace(rounds)) == |rounds|
    ensures Count(IsRepair, Trace(rounds)) == Count(Repaired, rounds)
    ensures Count(IsFixerSave, Trace(rounds)) == Count(Repaired, rounds)
    ensures Count(IsStoreWrite, Trace(rounds)) == Count(Repaired, rounds)
  {
    if |rounds| > 0 {
      var n := |rounds| - 1;
      var init := rounds[..n];
      var r := rounds[n];
      assert rounds == init + [r];
      TraceCounts(init);
      CountAppend(Repaired, init, [r]);
      RoundEventCounts(r);
      CountFlatMapSnoc(IsClassify, RoundEvents, init, r);
      CountFlatMapSnoc(IsClassificationSave, RoundEvents, init, r);
      CountFlatMapSnoc(IsEvaluationSave, RoundEvents, init, r);
      CountFlatMapSnoc(IsRepair, RoundEvents, init, r);
      CountFlatMapSnoc(IsFixerSave, RoundEvents, init, r);
      CountFlatMapSnoc(IsStoreWrite, RoundEvents, init, r);
    }
  }

  /** The counts within one round. */
  lemma RoundEventCounts(r: Round)
    ensures Count(IsClassify, RoundEvents(r)) == 1
    ensures Count(IsClassificationSave, RoundEvents(r)) == 1
    ensures Count(IsEvaluationSave, RoundEvents(r)) == 1
    ensures Count(IsRepair, RoundEvents(r)) == Ind(Repaired, r)
    ensures Count(IsFixerSave, RoundEvents(r)) == Ind(Repaired, r)
    ensures Count(IsStoreWrite, RoundEvents(r)) == Ind(Repaired, r)
  {
    var a := Classify(r.index, r.instruction, Payload);
    var b := Save(ClassificationArtifact, r.filename, r.response);
    var c := Evaluate(r.index, r.response);
    var d := Save(EvaluationArtifact, r.filename + EvalSuffix, r.evalText);
    var tail := RoundEvents(r)[4..];
    assert RoundEvents(r) == [a, b, c, d] + tail;
    CountFour(IsClassify, a, b, c, d);
    CountFour(IsClassificationSave, a, b, c, d);
    CountFour(IsEvaluationSave, a, b, c, d);
    CountFour(IsRepair, a, b, c, d);
    CountFour(IsFixerSave, a, b, c, d);
    CountFour(IsStoreWrite, a, b, c, d);
    CountAppend(IsClassify, [a, b, c, d], tail);
    CountAppend(IsClassificationSave, [a, b, c, d], tail);
    CountAppend(IsEvaluationSave, [a, b, c, d], tail);
    CountAppend(IsRepair, [a, b, c, d], tail);
    CountAppend(IsFixerSave, [a, b, c, d], tail);
    CountAppend(IsStoreWrite, [a, b, c, d], tail);
    if r.fix.Some? {
      var e := Repair(r.index, r.instruction, r.evaluation.evalResult);
      var f := Save(FixerArtifact, r.filename + FixerSuffix, r.fix.value.improved);
      var g := StoreWrite(r.index, r.fix.value.improved, r.fix.value.stored);
      assert tail == [e, f, g];
      CountThree(IsClassify, e, f, g);
      CountThree(IsClassificationSave, e, f, g);
      CountThree(IsEvaluationSave, e, f, g);
      CountThree(IsRepair, e, f, g);
      CountThree(IsFixerSave, e, f, g);
      CountThree(IsStoreWrite, e, f, g);
    } else {
      assert tail == [];
    }
  }

  /** Every classification call in a trace sends the same payload. */
  lemma SamePayload(rounds: seq<Round>)
    ensures forall e :: e in Trace(rounds) && e.Classify? ==> e.payload == Payload
  {
    forall e | e in Trace(rounds) && e.Classify?
      ensures e.payload == Payload
    {
      FlatMapMembership(RoundEvents, rounds, e);
    }
  }

  /** The trace ends with the last round's events. */
  lemma TraceEndsWithLastRound(rounds: seq<Round>)
    requires |rounds| > 0
    ensures Trace(rounds) == Trace(rounds[..|rounds| - 1]) + RoundEvents(Last(rounds))
  {
    assert rounds == rounds[..|rounds| - 1] + [Last(rounds)];
    FlatMapSnoc(RoundEvents, rounds[..|rounds| - 1], Last(rounds));
  }

  /** Every round but the last stored a new instruction, and the next round
      classified with exactly that text. */
  predicate Chained(rounds: seq<Round>) {
    forall i :: 0 <= i < |rounds| - 1 ==>
      Stored(rounds[i]) && rounds[i + 1].instruction == rounds[i].fix.value.improved
  }

  /** The rounds played so far: numbered from 1, each following the oracles,
      the first classifying with the imported instruction and each later one
      with the instruction its predecessor stored. */
  predicate Played(env: Oracles, imported: string, rounds: seq<Round>) {
    && (forall i :: 0 <= i < |rounds| ==> rounds[i].index == i + 1 && FollowsOracles(env, rounds[i]))
    && (|rounds| > 0 ==> rounds[0].instruction == imported)
    && Chained(rounds)
  }

  /** How the outcome and the store relate to the rounds played. */
  predicate Settled(imported: string, rounds: seq<Round>, outcome: Outcome, store: string) {
    && (rounds == [] ==> store == imported && outcome.BudgetSpent?)
    && (outcome.BudgetSpent? ==> forall i :: 0 <= i < |rounds| ==> Stored(rounds[i]))
    && (outcome.BudgetSpent? && |rounds| > 0 ==> store == Last(rounds).fix.value.improved)
    && (outcome.Converged? ==>
          |rounds| > 0 && Last(rounds).fix.None? && outcome.finalResult == Last(rounds).filename)
    && (outcome.StoreFailed? ==> |rounds| > 0 && Last(rounds).fix.Some? && !Stored(Last(rounds)))
    && (!outcome.BudgetSpent? ==> store == Last(rounds).instruction)
  }

  /** One more round keeps `Played` and `Settled`. */
  lemma PlayStep(env: Oracles, imported: string, rounds: seq<Round>, store: string, r: Round)
    requires Played(env, imported, rounds)
    requires Settled(imported, rounds, BudgetSpent, store)
    requires r.index == |rounds| + 1 && FollowsOracles(env, r)
    requires r.instruction == (if |rounds| > 0 then store else imported)
    ensures Played(env, imported, rounds + [r])
    ensures Settled(imported, rounds + [r],
                    if r.fix.None? then Converged(r.filename)
                    else if r.fix.value.stored then BudgetSpent else StoreFailed,
                    if Stored(r) then r.fix.value.improved else store)
  {
  }

  /** `main_process`. */
  method MainProcess(maxIterations: int, imported: string, env: Oracles) returns (run: Run)
    // bounded rounds, counted from 1
    ensures run.iteration == |run.rounds|
    ensures maxIterations <= 0 ==> run.rounds == []
    ensures run.rounds == [] || |run.rounds| <= maxIterations
    ensures forall i :: 0 <= i < |run.rounds| ==> run.rounds[i].index == i + 1
    ensures forall i :: 0 <= i < |run.rounds| ==> FollowsOracles(env, run.rounds[i])
    // the instruction of each round
    ensures |run.rounds| > 0 ==> run.rounds[0].instruction == imported
    ensures forall i :: 0 <= i < |run.rounds| - 1 ==>
              Stored(run.rounds[i]) && run.rounds[i + 1].instruction == run.rounds[i].fix.value.improved
    // how the run ends
    ensures run.outcome.Converged? <==> |run.rounds| > 0 && Last(run.rounds).fix.None?
    ensures run.outcome.Converged? ==> run.outcome.finalResult == Last(run.rounds).filename
    ensures run.outcome.StoreFailed? <==> |run.rounds| > 0 && Last(run.rounds).fix.Some? && !Stored(Last(run.rounds))
    ensures run.outcome.BudgetSpent? ==> |run.rounds| == (if maxIterations <= 0 then 0 else maxIterations)
    ensures run.outcome.BudgetSpent? ==> forall i :: 0 <= i < |run.rounds| ==> Stored(run.rounds[i])
    // the store holds the last text written to it
    ensures |run.rounds| > 0 && Stored(Last(run.rounds)) ==> run.store == Last(run.rounds).fix.value.improved
    ensures |run.rounds| > 0 && !Stored(Last(run.rounds)) ==> run.store == Last(run.rounds).instruction
    ensures run.rounds == [] ==> run.store == imported
    // what was observed, in order
    ensures run.trace == Trace(run.rounds)
    ensures Count(IsClassify, run.trace) == run.iteration
    ensures Count(IsClassificationSave, run.trace) == run.iteration
    ensures Count(IsEvaluationSave, run.trace) == run.iteration
    ensures run.outcome.BudgetSpent? ==>
              Count(IsRepair, run.trace) == Count(IsStoreWrite, run.trace) == |run.rounds|
    ensures run.outcome.Converged? ==>
              Last(run.trace) == Save(EvaluationArtifact, run.outcome.finalResult + EvalSuffix, Last(run.rounds).evalText)
    ensures run.outcome.StoreFailed? ==> Last(run.trace).StoreWrite? && !Last(run.trace).ok
    // the closing message
    ensures run.maxNotice <==> run.iteration >= maxIterations
  {
    var iteration: nat := 0;
    var store := imported;
    var rounds: seq<Round> := [];
    var trace: seq<Event> := [];
    var outcome := BudgetSpent;
    while iteration < maxIterations && outcome.BudgetSpent?
      invariant iteration == |rounds|
      invariant maxIterations <= 0 ==> iteration == 0
      invariant iteration == 0 || iteration <= maxIterations
      invariant Played(env, imported, rounds)
      invariant Settled(imported, rounds, outcome, store)
      invariant trace == Trace(rounds)
    {
      iteration := iteration + 1;
      // round 1 uses the imported instruction, later rounds re-read the store
      var current := if iteration > 1 then store else imported;
      var r, events := PlayRound(iteration, current, env);
      FlatMapSnoc(RoundEvents, rounds, r);
      trace := trace + events;
      PlayStep(env, imported, rounds, store, r);
      rounds := rounds + [r];
      if r.fix.None? {
        outcome := Converged(r.filename);      // break
      } else if r.fix.value.stored {
        store := r.fix.value.improved;
      } else {
        outcome := StoreFailed;                // break
      }
    }
    run := Run(rounds, trace, iteration, outcome, store, iteration >= maxIterations);
    ObservedTrace(rounds, outcome);
  }

  /** What the trace of a finished run shows, from how the run ended. */
  lemma ObservedTrace(rounds: seq<Round>, outcome: Outcome)
    requires outcome.Converged? ==>
               |rounds| > 0 && Last(rounds).fix.None? && outcome.finalResult == Last(rounds).filename
    requires outcome.StoreFailed? ==> |rounds| > 0 && Last(rounds).fix.Some? && !Stored(Last(rounds))
    requires outcome.BudgetSpent? ==> forall i :: 0 <= i < |rounds| ==> Stored(rounds[i])
    ensures Count(IsClassify, Trace(rounds)) == |rounds|
    ensures Count(IsClassificationSave, Trace(rounds)) == |rounds|
    ensures Count(IsEvaluationSave, Trace(rounds)) == |rounds|
    ensures outcome.BudgetSpent? ==>
              Count(IsRepair, Trace(rounds)) == Count(IsStoreWrite, Trace(rounds)) == |rounds|
    ensures outcome.Converged? ==>
              Last(Trace(rounds)) == Save(EvaluationArtifact, outcome.finalResult + EvalSuffix, Last(rounds).evalText)
    ensures outcome.StoreFailed? ==> Last(Trace(rounds)).StoreWrite? && !Last(Trace(rounds)).ok
  {
    TraceCounts(rounds);
    if outcome.BudgetSpent? {
      AllRepaired(rounds);
    }
    if |rounds| > 0 {
      TraceEndsWithLastRound(rounds);
    }
  }

  lemma {:induction false} AllRepaired(rounds: seq<Round>)
    requires forall i :: 0 <= i < |rounds| ==> Stored(rounds[i])
    ensures Count(Repaired, rounds) == |rounds|
  {
    if |rounds| > 0 {
      assert Stored(rounds[0]);
      AllRepaired(rounds[1..]);
    }
  }

  /** The body of one round: classify with `instruction`, save the result,
      audit it (which saves the audit), and unless fewer than `Threshold`
      issues were found, ask for a new instruction, save it as the fixer
      artifact and write it to the store.  `events` is what was done, in order. */
  method PlayRound(index: nat, instruction: string, env: Oracles) returns (r: Round, events: seq<Event>)
    ensures r.index == index && r.instruction == instruction
    ensures FollowsOracles(env, r)
    ensures events == RoundEvents(r)
    ensures |events| == (if r.fix.Some? then 7 else 4)
  {
    var response := env.classify(index, instruction, Payload);
    events := [Classify(index, instruction, Payload)];
    var filename := ResultName(env.stamp(index));
    events := events + [Save(ClassificationArtifact, filename, response)];
    var evalText := env.evaluate(index, response);
    events := events + [Evaluate(index, response)];
    events := events + [Save(EvaluationArtifact, filename + EvalSuffix, evalText)];
    var evaluation := EvaluateResult(evalText, env.parseJson);
    if |evaluation.issues| < Threshold {
      r := Round(index, instruction, response, filename, evalText, evaluation, None);
      return;
    }
    var improved := env.repair(index, instruction, evaluation.evalResult);
    events := events + [Repair(index, instruction, evaluation.evalResult)];
    events := events + [Save(FixerArtifact, filename + FixerSuffix, improved)];
    var ok := env.storeWrite(index, improved);
    events := events + [StoreWrite(index, improved, ok)];
    r := Round(index, instruction, response, filename, evalText, evaluation, Some(Fix(improved, ok)));
  }
}

=== FILE: category_count.dfy ===
/** The per-category item counter: for each `{category, items}` block of a
    classification file, the category's name and number of items, the total,
    and each category's percentage share of the total. */
module CategoryCount {
  import opened Options

  /** One classified report as it appears in a block's `items` list. */
  datatype Item = Item(userId: string, contents: string)

  /** One block of the classification file; a missing key is `None`. */
  datatype CategoryBlock = CategoryBlock(category: Option<string>, items: Option<seq<Item>>)

  datatype CategoryCount = CategoryCount(category: string, count: nat)

  /** One printed line `category: count (percentage%)`, the percentage exact. */
  datatype ShareLine = ShareLine(category: string, count: nat, percent: real)

  /** What the report prints: either the "no items" notice, or one line per
      block followed by the total. */
  datatype Report = NoItems | Breakdown(lines: seq<ShareLine>, total: nat)

  /** The name reported for a block without a `category` key. */
  const UnknownCategory: string := "알 수 없음"

  /** Sum of the counts. */
  function SumCounts(counts: seq<CategoryCount>): nat {
    if |counts| == 0 then 0 else counts[0].count + SumCounts(counts[1..])
  }

  /** Sum of the item-list lengths, missing lists counting 0. */
  function TotalItems(blocks: seq<CategoryBlock>): nat {
    if |blocks| == 0 then 0
    else (if blocks[0].items.Some? then |blocks[0].items.value| else 0) + TotalItems(blocks[1..])
  }

  lemma {:induction false} SumCountsSnoc(counts: seq<CategoryCount>, c: CategoryCount)
    ensures SumCounts(counts + [c]) == SumCounts(counts) + c.count
  {
    if |counts| == 0 {
      assert counts + [c] == [c];
    } else {
      assert (counts + [c])[1..] == counts[1..] + [c];
      SumCountsSnoc(counts[1..], c);
    }
  }

  lemma {:induction false} TotalItemsSnoc(blocks: seq<CategoryBlock>, b: CategoryBlock)
    ensures TotalItems(blocks + [b]) == TotalItems(blocks) + (if b.items.Some? then |b.items.value| else 0)
  {
    if |blocks| == 0 {
      assert blocks + [b] == [b];
    } else {
      assert (blocks + [b])[1..] == blocks[1..] + [b];
      TotalItemsSnoc(blocks[1..], b);
    }
  }

  /** The counting loop of `count_items_by_category`: one entry per block, in
      block order, with the default name and the default empty list applied;
      the total is the sum of the entries. */
  method CountItemsByCategory(blocks: seq<CategoryBlock>) returns (counts: seq<CategoryCount>, total: nat)
    ensures |counts| == |blocks|
    ensures forall i :: 0 <= i < |blocks| ==>
              counts[i].category == blocks[i].category.GetOr(UnknownCategory)
    ensures forall i :: 0 <= i < |blocks| ==>
              counts[i].count == (if blocks[i].items.Some? then |blocks[i].items.value| else 0)
    ensures total == SumCounts(counts)
    ensures total == TotalItems(blocks)
  {
    total := 0;
    counts := [];
    var i := 0;
    while i < |blocks|
      invariant i <= |blocks|
      invariant |counts| == i
      invariant forall k :: 0 <= k < i ==>
                  counts[k].category == blocks[k].category.GetOr(UnknownCategory)
      invariant forall k :: 0 <= k < i ==>
                  counts[k].count == (if blocks[k].items.Some? then |blocks[k].items.value| else 0)
      invariant total == SumCounts(counts)
      invariant total == TotalItems(blocks[..i])
    {
      var block := blocks[i];
      var category := block.category.GetOr(UnknownCategory);
      var items := block.items.GetOr([]);
      var itemCount := |items|;
      SumCountsSnoc(counts, CategoryCount(category, itemCount));
      assert blocks[..i + 1] == blocks[..i] + [block];
      TotalItemsSnoc(blocks[..i], block);
      total := total + itemCount;
      counts := counts + [CategoryCount(category, itemCount)];
      i := i + 1;
    }
    assert blocks[..i] == blocks;
  }

  /** A block's percentage share of the total. */
  function Share(count: nat, total: nat): (percent: real)
    requires total > 0
    ensures percent * (total as real) == (count as real) * 100.0
    ensures 0.0 <= percent
    ensures count <= total ==> percent <= 100.0
  {
    (count as real) * 100.0 / (total as real)
  }

  function SumShares(lines: seq<ShareLine>): real {
    if |lines| == 0 then 0.0 else lines[0].percent + SumShares(lines[1..])
  }

  function ToLines(counts: seq<CategoryCount>, total: nat): (lines: seq<ShareLine>)
    requires total > 0
    ensures |lines| == |counts|
    ensures forall i :: 0 <= i < |counts| ==>
              lines[i] == ShareLine(counts[i].category, counts[i].count, Share(counts[i].count, total))
  {
    if |counts| == 0 then []
    else [ShareLine(counts[0].category, counts[0].count, Share(counts[0].count, total))]
         + ToLines(counts[1..], total)
  }

  /** The report `count_items_by_category` prints: the "no items" notice when
      the total is zero, otherwise one line per block with its share and the
      total line. */
  method CategoryReport(blocks: seq<CategoryBlock>) returns (report: Report)
    ensures report.NoItems? <==> TotalItems(blocks) == 0
    ensures report.NoItems? <==> forall i :: 0 <= i < |blocks| ==>
                                   blocks[i].items.None? || blocks[i].items.value == []
    ensures report.Breakdown? ==> report.total == TotalItems(blocks) && |report.lines| == |blocks|
    ensures report.Breakdown? ==> forall i :: 0 <= i < |blocks| ==>
              report.lines[i].category == blocks[i].category.GetOr(UnknownCategory)
              && report.lines[i].count == (if blocks[i].items.Some? then |blocks[i].items.value| else 0)
              && report.lines[i].percent == Share(report.lines[i].count, report.total)
    ensures report.Breakdown? ==> SumShares(report.lines) == 100.0
  {
    var counts, total := CountItemsByCategory(blocks);
    TotalZeroIffEmpty(blocks);
    if total == 0 {
      return NoItems;
    }
    var lines := ToLines(counts, total);
    SharesSumToHundred(counts, total);
    report := Breakdown(lines, total);
  }

  /** The total is zero exactly when every block's item list is missing or empty. */
  lemma {:induction false} TotalZeroIffEmpty(blocks: seq<CategoryBlock>)
    ensures TotalItems(blocks) == 0 <==>
              forall i :: 0 <= i < |blocks| ==> blocks[i].items.None? || blocks[i].items.value == []
  {
    if |blocks| > 0 {
      TotalZeroIffEmpty(blocks[1..]);
      assert forall i :: 1 <= i < |blocks| ==> blocks[i] == blocks[1..][i - 1];
    }
  }

  /** The shares add up to `100 * (sum of counts) / total`. */
  lemma {:induction false} SumSharesScaled(counts: seq<CategoryCount>, total: nat)
    requires total > 0
    ensures SumShares(ToLines(counts, total)) == (SumCounts(counts) as real) * 100.0 / (total as real)
  {
    if |counts| > 0 {
      var lines := ToLines(counts, total);
      assert lines[1..] == ToLines(counts[1..], total);
      SumSharesScaled(counts[1..], total);
      AddFractions(counts[0].count as real, SumCounts(counts[1..]) as real, total as real);
    }
  }

  lemma AddFractions(a: real, b: real, t: real)
    requires t > 0.0
    ensures a * 100.0 / t + b * 100.0 / t == (a + b) * 100.0 / t
  {
  }

  lemma WholeIsHundred(t: real)
    requires t > 0.0
    ensures t * 100.0 / t == 100.0
  {
  }

  /** When the total is the sum of the counts, the shares add up to exactly
      100, the figure printed on the total line. */
  lemma SharesSumToHundred(counts: seq<CategoryCount>, total: nat)
    requires total > 0 && total == SumCounts(counts)
    ensures SumShares(ToLines(counts, total)) == 100.0
  {
    SumSharesScaled(counts, total);
    WholeIsHundred(total as real);
  }

  /** Items are not de-duplicated: one item listed alone under each of `n`
      categories makes a total of `n`. */
  lemma {:induction false} TotalCountsEveryListing(blocks: seq<CategoryBlock>, it: Item)
    requires forall i :: 0 <= i < |blocks| ==> blocks[i].items == Some([it])
    ensures TotalItems(blocks) == |blocks|
  {
    if |blocks| > 0 {
      TotalCountsEveryListing(blocks[1..], it);
    }
  }
}

=== FILE: instruction_file.dfy ===
/** The instruction store as a source file: `update_system_instruction`
    rewrites every `SYSTEM_INSTRUCTION = """..."""` assignment in the file
    with the new text, using `re.sub` with a lazy `.*?` under `re.DOTALL`. */
module InstructionFile {
  import opened Options
  import opened Text

  /** The opening of the assignment the pattern looks for. */
  const Head: string := "SYSTEM_INSTRUCTION = \"\"\""
  /** The closing triple quote. */
  const Quotes: string := "\"\"\""

  /** The text `re.sub` puts in place of each matched span. */
  function Replacement(newInstruction: string): string {
    Head + newInstruction + Quotes
  }

  /** Length of the span `SYSTEM_INSTRUCTION = """.*?"""` when it matches at
      the very start of `s`: the opening, then up to and including the first
      closing triple quote after it. */
  function MatchEnd(s: string): (r: Option<nat>)
    ensures r.Some? <==> IsAt(s, Head, 0) && FindFrom(s, Quotes, |Head|).Some?
    ensures r.Some? ==> r.value == FindFrom(s, Quotes, |Head|).value + |Quotes|
    ensures r.Some? ==> |Head| + |Quotes| <= r.value <= |s|
  {
    if IsAt(s, Head, 0) then
      match FindFrom(s, Quotes, |Head|)
      case Some(q) => Some(q + |Quotes|)
      case None => None
    else None
  }

  /** `re.sub(pattern, repl, s, flags=re.DOTALL)` with a literal `repl`: scan
      left to right, replace each span that matches, copy everything else. */
  function SubAll(s: string, repl: string): (r: string)
    ensures NoSpanBefore(s, |s|) ==> r == s
    decreases |s|
  {
    if |s| == 0 then ""
    else
      match MatchEnd(s)
      case Some(e) => repl + SubAll(s[e..], repl)
      case None => [s[0]] + SubAll(s[1..], repl)
  }

  /** The raw text of the instruction literal: scanning left to right, the
      characters between the delimiters of the first
      `SYSTEM_INSTRUCTION = """..."""`.  It is the value the reloaded module
      binds when that text has no backslash and no carriage return. */
  function ReadInstruction(s: string): (r: Option<string>)
    ensures r.Some? ==> |r.value| <= |s|
    ensures r.None? <==> NoSpanBefore(s, |s|)
    decreases |s|
  {
    if |s| == 0 then None
    else
      match MatchEnd(s)
      case Some(e) => Some(s[|Head|..e - |Quotes|])
      case None => ReadInstruction(s[1..])
  }

  /** The file-system side of `update_system_instruction`: `content` is `None`
      when the file cannot be read, `writable` is false when writing fails. */
  datatype FileState = FileState(content: Option<string>, writable: bool)

  /** `update_system_instruction`: `true` and the rewritten file when both the
      read and the write succeed; `false` and the file untouched otherwise. */
  function UpdateSystemInstruction(file: FileState, newInstruction: string): (r: (bool, FileState))
    requires NoBackslash(newInstruction)
    ensures r.0 <==> file.content.Some? && file.writable
    ensures r.0 ==> r.1 == file.(content := Some(SubAll(file.content.value, Replacement(newInstruction))))
    ensures !r.0 ==> r.1 == file
    ensures r.0 && (forall k :: 0 <= k < |file.content.value| ==> !IsAt(file.content.value, Head, k)) ==>
              r.1 == file
    ensures r.0 ==> forall pre, current, post :: FirstAssignment(file.content.value, pre, current, post) ==>
              r.1.content.value == pre + Replacement(newInstruction) + SubAll(post, Replacement(newInstruction))
    ensures r.0 && Delimited(newInstruction) && NoCarriageReturn(newInstruction) ==>
              forall pre, current, post :: FirstAssignment(file.content.value, pre, current, post) ==>
                ReadInstruction(r.1.content.value) == Some(newInstruction)
  {
    if file.content.Some? && file.writable then
      RewriteFacts(file.content.value, newInstruction);
      (true, file.(content := Some(SubAll(file.content.value, Replacement(newInstruction)))))
    else (false, file)
  }

  /** What the rewrite does to a file: one without `SYSTEM_INSTRUCTION = """`
      is unchanged; in one whose first assignment is at `pre` the text before
      it is kept, the assignment gets the new text and the rest is rewritten
      the same way; and reading the result back yields the new text when it
      is delimited. */
  lemma RewriteFacts(s: string, newInstruction: string)
    ensures (forall k :: 0 <= k < |s| ==> !IsAt(s, Head, k)) ==> SubAll(s, Replacement(newInstruction)) == s
    ensures forall pre, current, post :: FirstAssignment(s, pre, current, post) ==>
              SubAll(s, Replacement(newInstruction))
              == pre + Replacement(newInstruction) + SubAll(post, Replacement(newInstruction))
    ensures Delimited(newInstruction) && NoBackslash(newInstruction) && NoCarriageReturn(newInstruction) ==>
              forall pre, current, post :: FirstAssignment(s, pre, current, post) ==>
                ReadInstruction(SubAll(s, Replacement(newInstruction))) == Some(newInstruction)
  {
    if forall k :: 0 <= k < |s| ==> !IsAt(s, Head, k) {
      NoSpanUnchanged(s, Replacement(newInstruction));
    }
    forall pre, current, post | FirstAssignment(s, pre, current, post)
      ensures SubAll(s, Replacement(newInstruction))
              == pre + Replacement(newInstruction) + SubAll(post, Replacement(newInstruction))
      ensures Delimited(newInstruction) && NoBackslash(newInstruction) && NoCarriageReturn(newInstruction) ==>
                ReadInstruction(SubAll(s, Replacement(newInstruction))) == Some(newInstruction)
    {
      RewriteFirstAssignment(s, pre, current, post, newInstruction);
      if Delimited(newInstruction) && NoBackslash(newInstruction) && NoCarriageReturn(newInstruction) {
        UpdateThenRead(s, pre, current, post, newInstruction);
      }
    }
  }

  /** `re.sub` treats backslashes in the replacement as escapes; text without
      them is inserted literally, which is what `SubAll` does. */
  predicate NoBackslash(s: string) {
    forall k :: 0 <= k < |s| ==> s[k] != '\\'
  }

  /** The first closing triple quote in `text + Quotes` is the appended one:
      the text does not contain `"""` and does not end in a quote. */
  /** Compiling a triple-quoted literal turns `\r\n` and a lone `\r` into
      `\n`; text without a carriage return is bound as written. */
  predicate NoCarriageReturn(s: string) {
    forall k :: 0 <= k < |s| ==> s[k] != '\r'
  }

  predicate Delimited(text: string) {
    FindFrom(text + Quotes, Quotes, 0) == Some(|text|)
  }

  // ---------------------------------------------------------------------
  // Lemmas
  // ---------------------------------------------------------------------

  /** No span starts at any of the first `n` positions of `s`. */
  predicate NoSpanBefore(s: string, n: nat)
    requires n <= |s|
  {
    n == 0 || (MatchEnd(s).None? && NoSpanBefore(s[1..], n - 1))
  }

  lemma {:induction false} NoSpanBeforeAll(s: string, n: nat)
    requires n <= |s|
    requires forall k :: 0 <= k < n ==> MatchEnd(s[k..]).None?
    ensures NoSpanBefore(s, n)
  {
    if n > 0 {
      assert s[0..] == s;
      NoSpanInTail(s, n);
      NoSpanBeforeAll(s[1..], n - 1);
    }
  }

  /** Where no span starts before `n`, the first `n` characters are copied. */
  lemma {:induction false} SubAllCopiesPrefix(s: string, repl: string, n: nat)
    requires n <= |s| && NoSpanBefore(s, n)
    ensures SubAll(s, repl) == s[..n] + SubAll(s[n..], repl)
  {
    if n > 0 {
      SubAllSkip(s, repl);
      SubAllCopiesPrefix(s[1..], repl, n - 1);
      SplitAfterFirst(s, n);
    }
  }

  /** Where no span starts at the front, the first character is copied. */
  lemma SubAllSkip(s: string, repl: string)
    requires |s| > 0 && MatchEnd(s).None?
    ensures SubAll(s, repl) == [s[0]] + SubAll(s[1..], repl)
  {
  }

  lemma NoSpanInTail(s: string, n: nat)
    requires 0 < n <= |s|
    requires forall k :: 0 <= k < n ==> MatchEnd(s[k..]).None?
    ensures forall k :: 0 <= k < n - 1 ==> MatchEnd(s[1..][k..]).None?
  {
  }

  lemma SplitAfterFirst(s: string, n: nat)
    requires 0 < n <= |s|
    ensures s[..n] == [s[0]] + s[1..][..n - 1]
    ensures s[1..][n - 1..] == s[n..]
  {
  }

  /** A file without any `SYSTEM_INSTRUCTION = """` is left exactly as it was. */
  lemma NoSpanUnchanged(s: string, repl: string)
    requires forall k :: 0 <= k < |s| ==> !IsAt(s, Head, k)
    ensures SubAll(s, repl) == s
    ensures ReadInstruction(s) == None
  {
    NoHeadNoSpan(s, |s|);
    SubAllCopiesPrefix(s, repl, |s|);
    assert s[..|s|] == s;
    assert s[|s|..] == "";
    ReadNoneIff(s);
  }

  /** Reading finds nothing exactly when no span starts anywhere in the file. */
  lemma {:induction false} ReadNoneIff(s: string)
    ensures ReadInstruction(s).None? <==> NoSpanBefore(s, |s|)
  {
    if |s| > 0 {
      ReadNoneIff(s[1..]);
    }
  }

  /** The first `"""` in `x + y + z` at or after `|x|` is the first one in `y`
      when `y` has one. */
  lemma FindInMiddle(x: string, y: string, z: string, pat: string, j: nat)
    requires FindFrom(y, pat, 0) == Some(j)
    ensures FindFrom(x + y + z, pat, |x|) == Some(|x| + j)
  {
    IsAtInMiddle(x, y, z, pat, j);
    NoneInMiddle(x, y, z, pat, j);
    FindFromWitness(x + y + z, pat, |x|, |x| + j);
  }

  /** No occurrence in `y` before `j` means none in `x + y + z` between `|x|` and `|x| + j`. */
  lemma NoneInMiddle(x: string, y: string, z: string, pat: string, j: nat)
    requires j + |pat| <= |y|
    requires forall k :: 0 <= k < j ==> !IsAt(y, pat, k)
    ensures forall k :: |x| <= k < |x| + j ==> !IsAt(x + y + z, pat, k)
  {
    forall k | |x| <= k < |x| + j
      ensures !IsAt(x + y + z, pat, k)
    {
      assert !IsAt(y, pat, k - |x|);
      IsAtInMiddle(x, y, z, pat, k - |x|);
    }
  }

  /** An occurrence inside `y` is an occurrence at the shifted index in `x + y + z`. */
  lemma IsAtInMiddle(x: string, y: string, z: string, pat: string, k: nat)
    requires k + |pat| <= |y|
    ensures IsAt(x + y + z, pat, |x| + k) <==> IsAt(y, pat, k)
  {
  }

  /** Shape of a file with one rewritable assignment: the text before it
      holds no `SYSTEM_INSTRUCTION = """`, and its current value is delimited. */
  predicate FirstAssignment(s: string, pre: string, current: string, post: string) {
    && s == pre + Head + current + Quotes + post
    && (forall k :: 0 <= k < |pre| ==> !IsAt(s, Head, k))
    && Delimited(current)
  }

  /** In such a file the first span is the assignment at `|pre|`. */
  lemma SpanOfAssignment(s: string, pre: string, current: string, post: string)
    requires FirstAssignment(s, pre, current, post)
    ensures MatchEnd(s[|pre|..]) == Some(|Head| + |current| + |Quotes|)
    ensures NoSpanBefore(s, |pre|)
  {
    assert s[|pre|..] == Head + (current + Quotes) + post;
    MatchOfAssignment(s[|pre|..], current, post);
    NoHeadNoSpan(s, |pre|);
  }

  /** The span at the front of `Head + current + Quotes + post` ends after the
      closing quotes, when `current` is delimited. */
  lemma MatchOfAssignment(t: string, current: string, post: string)
    requires t == Head + (current + Quotes) + post && Delimited(current)
    ensures MatchEnd(t) == Some(|Head| + |current| + |Quotes|)
  {
    assert t[0..|Head|] == Head;
    FindInMiddle(Head, current + Quotes, post, Quotes, |current|);
  }

  /** Without a `SYSTEM_INSTRUCTION = """` before `n` no span starts before `n`. */
  lemma NoHeadNoSpan(s: string, n: nat)
    requires n <= |s|
    requires forall k :: 0 <= k < n ==> !IsAt(s, Head, k)
    ensures NoSpanBefore(s, n)
  {
    forall k | 0 <= k < n
      ensures MatchEnd(s[k..]).None?
    {
      if IsAt(s[k..], Head, 0) {
        assert s[k..][0..|Head|] == s[k..k + |Head|];
        assert IsAt(s, Head, k);
      }
    }
    NoSpanBeforeAll(s, n);
  }

  /** `re.sub` rewrites the first assignment and continues after it: the text
      before it is kept and the rest of the file is processed the same way. */
  lemma RewriteFirstAssignment(s: string, pre: string, current: string, post: string, newInstruction: string)
    requires FirstAssignment(s, pre, current, post)
    ensures SubAll(s, Replacement(newInstruction))
            == pre + Replacement(newInstruction) + SubAll(post, Replacement(newInstruction))
  {
    var repl := Replacement(newInstruction);
    SpanOfAssignment(s, pre, current, post);
    SubAllCopiesPrefix(s, repl, |pre|);
    assert s[..|pre|] == pre;
    var t := s[|pre|..];
    assert t[|Head| + |current| + |Quotes|..] == post;
  }

  /** Reading a file whose first assignment holds `text` yields `text`. */
  lemma ReadFirstAssignment(s: string, pre: string, text: string, post: string)
    requires FirstAssignment(s, pre, text, post)
    ensures ReadInstruction(s) == Some(text)
  {
    SpanOfAssignment(s, pre, text, post);
    ReadSkipsPrefix(s, |pre|);
    ValueOfAssignment(s, pre, text, post);
  }

  /** Where no span starts before `n`, reading starts at `n`. */
  lemma {:induction false} ReadSkipsPrefix(s: string, n: nat)
    requires n <= |s| && NoSpanBefore(s, n)
    ensures ReadInstruction(s) == ReadInstruction(s[n..])
  {
    if n > 0 {
      ReadInstructionSkip(s);
      ReadSkipsPrefix(s[1..], n - 1);
      assert s[1..][n - 1..] == s[n..];
    }
  }

  lemma ReadInstructionSkip(s: string)
    requires |s| > 0 && MatchEnd(s).None?
    ensures ReadInstruction(s) == ReadInstruction(s[1..])
  {
  }

  /** The value read from `pre + Head + text + Quotes + post` at `|pre|`. */
  lemma ValueOfAssignment(s: string, pre: string, text: string, post: string)
    requires s == pre + Head + text + Quotes + post
    requires MatchEnd(s[|pre|..]) == Some(|Head| + |text| + |Quotes|)
    ensures ReadInstruction(s[|pre|..]) == Some(text)
  {
    var t := s[|pre|..];
    assert t == Head + text + Quotes + post;
    assert t[|Head|..|Head| + |text|] == text;
  }

  /** The file after the rewrite, read back, yields the new instruction: the
      next round sees exactly the text the update wrote, provided that text is
      itself delimited (it contains no `"""` and does not end in a quote) and
      holds nothing the literal would decode: no backslash, no carriage
      return. */
  lemma UpdateThenRead(s: string, pre: string, current: string, post: string, newInstruction: string)
    requires FirstAssignment(s, pre, current, post)
    requires Delimited(newInstruction) && NoBackslash(newInstruction) && NoCarriageReturn(newInstruction)
    ensures ReadInstruction(SubAll(s, Replacement(newInstruction))) == Some(newInstruction)
  {
    var repl := Replacement(newInstruction);
    RewrittenShape(s, pre, current, post, newInstruction);
    ReadFirstAssignment(SubAll(s, repl), pre, newInstruction, SubAll(post, repl));
  }

  /** After the rewrite the new text is the file's first assignment. */
  lemma RewrittenShape(s: string, pre: string, current: string, post: string, newInstruction: string)
    requires FirstAssignment(s, pre, current, post)
    requires Delimited(newInstruction)
    ensures FirstAssignment(SubAll(s, Replacement(newInstruction)), pre, newInstruction,
                            SubAll(post, Replacement(newInstruction)))
  {
    var repl := Replacement(newInstruction);
    RewriteFirstAssignment(s, pre, current, post, newInstruction);
    SameOpening(s, SubAll(s, repl), pre, current, post, newInstruction, SubAll(post, repl));
  }

  /** Replacing the first assignment's value keeps it the first assignment. */
  lemma SameOpening(s: string, o: string, pre: string, current: string, post: string,
                    text: string, rest: string)
    requires FirstAssignment(s, pre, current, post)
    requires Delimited(text)
    requires o == pre + Replacement(text) + rest
    ensures FirstAssignment(o, pre, text, rest)
  {
    Regroup(pre, Head, text, Quotes, rest);
    Regroup(pre, Head, current, Quotes, post);
    ShiftedHead(s, o, pre, current + Quotes + post, text + Quotes + rest);
  }

  /** The groupings of a five-part concatenation used above. */
  lemma Regroup(a: string, b: string, c: string, d: string, e: string)
    ensures a + (b + c + d) + e == a + b + c + d + e
    ensures a + b + c + d + e == a + b + (c + d + e)
  {
  }

  /** Two files that agree on `pre + Head` have the same openings before `|pre|`. */
  lemma ShiftedHead(s: string, o: string, pre: string, x: string, y: string)
    requires s == pre + Head + x && o == pre + Head + y
    ensures forall k :: 0 <= k < |pre| ==> (IsAt(o, Head, k) <==> IsAt(s, Head, k))
  {
  }
}

=== FILE: options.dfy ===
/** The optional value used wherever the Python code returns `None` or leaves
    a key out of a dictionary. */
module Options {

  datatype Option<+T> = None | Some(value: T) {

    /** The wrapped value, or `default` when there is none. */
    function GetOr(default: T): T {
      match this
      case Some(v) => v
      case None => default
    }
  }
}

=== FILE: seqs.dfy ===
/** Order-keeping sequence combinators shared by the parser, the counter and
    the refinement trace: a Python list comprehension with an `if` filter and
    a loop that appends zero or more values per input are both a `FlatMap`. */
module Seqs {

  /** Concatenation of `f(x)` over `xs`, in order. */
  function FlatMap<A, B>(f: A -> seq<B>, xs: seq<A>): seq<B>
  {
    if |xs| == 0 then [] else f(xs[0]) + FlatMap(f, xs[1..])
  }

  /** `FlatMap` distributes over concatenation: the output for a joined list is
      the outputs for the two parts, in the same order. */
  lemma {:induction false} FlatMapAppend<A, B>(f: A -> seq<B>, xs: seq<A>, ys: seq<A>)
    ensures FlatMap(f, xs + ys) == FlatMap(f, xs) + FlatMap(f, ys)
  {
    if |xs| == 0 {
      assert xs + ys == ys;
    } else {
      assert (xs + ys)[1..] == xs[1..] + ys;
      FlatMapAppend(f, xs[1..], ys);
    }
  }

  /** Extending the input by one element appends exactly that element's output. */
  lemma FlatMapSnoc<A, B>(f: A -> seq<B>, xs: seq<A>, x: A)
    ensures FlatMap(f, xs + [x]) == FlatMap(f, xs) + f(x)
  {
    FlatMapAppend(f, xs, [x]);
    assert FlatMap(f, [x]) == f(x) + FlatMap(f, []);
  }

  /** Growing a prefix of the input by one element appends that element's output. */
  lemma FlatMapPrefix<A, B>(f: A -> seq<B>, xs: seq<A>, i: nat)
    requires i < |xs|
    ensures FlatMap(f, xs[..i + 1]) == FlatMap(f, xs[..i]) + f(xs[i])
  {
    assert xs[..i + 1] == xs[..i] + [xs[i]];
    FlatMapSnoc(f, xs[..i], xs[i]);
  }

  /** `FlatMap` as a loop: the outputs of `xs[0]`, `xs[1]`, ... appended in turn. */
  method ConcatMap<A, B>(f: A -> seq<B>, xs: seq<A>) returns (ys: seq<B>)
    ensures ys == FlatMap(f, xs)
  {
    ys := [];
    var i := 0;
    while i < |xs|
      invariant i <= |xs|
      invariant ys == FlatMap(f, xs[..i])
    {
      FlatMapPrefix(f, xs, i);
      ys := ys + f(xs[i]);
      i := i + 1;
    }
    assert xs[..i] == xs;
  }

  /** When every input yields at most one output, the output is no longer than the input. */
  lemma {:induction false} FlatMapAtMostOne<A, B>(f: A -> seq<B>, xs: seq<A>)
    requires forall k :: 0 <= k < |xs| ==> |f(xs[k])| <= 1
    ensures |FlatMap(f, xs)| <= |xs|
  {
    if |xs| > 0 {
      assert |f(xs[0])| <= 1;
      FlatMapAtMostOne(f, xs[1..]);
    }
  }

  /** The input element an output element came from. */
  lemma FlatMapSource<A, B>(f: A -> seq<B>, xs: seq<A>, y: B) returns (k: nat)
    requires y in FlatMap(f, xs)
    ensures k < |xs| && y in f(xs[k])
  {
    FlatMapMembership(f, xs, y);
    k :| k < |xs| && y in f(xs[k]);
  }

  lemma {:induction false} FlatMapMembership<A, B>(f: A -> seq<B>, xs: seq<A>, y: B)
    ensures y in FlatMap(f, xs) <==> exists k :: 0 <= k < |xs| && y in f(xs[k])
  {
    if |xs| > 0 {
      FlatMapMembership(f, xs[1..], y);
      if y in FlatMap(f, xs[1..]) {
        var k :| 0 <= k < |xs[1..]| && y in f(xs[1..][k]);
        assert y in f(xs[k + 1]);
      }
      if exists k :: 0 <= k < |xs| && y in f(xs[k]) {
        var k :| 0 <= k < |xs| && y in f(xs[k]);
        if k > 0 {
          assert y in f(xs[1..][k - 1]);
        }
      }
    }
  }

  /** The output is empty exactly when every input yields nothing. */
  lemma {:induction false} FlatMapEmpty<A, B>(f: A -> seq<B>, xs: seq<A>)
    ensures FlatMap(f, xs) == [] <==> forall k :: 0 <= k < |xs| ==> f(xs[k]) == []
  {
    if |xs| > 0 {
      FlatMapEmpty(f, xs[1..]);
      assert forall k :: 1 <= k < |xs| ==> xs[k] == xs[1..][k - 1];
    }
  }

  /** Number of elements of `xs` satisfying `p`. */
  function Count<T>(p: T -> bool, xs: seq<T>): (n: nat)
    ensures n <= |xs|
  {
    if |xs| == 0 then 0 else (if p(xs[0]) then 1 else 0) + Count(p, xs[1..])
  }

  /** Counting over a `FlatMap` is the sum of the counts over each input's output. */
  lemma {:induction false} CountFlatMapSnoc<A, B>(p: B -> bool, f: A -> seq<B>, xs: seq<A>, x: A)
    ensures Count(p, FlatMap(f, xs + [x])) == Count(p, FlatMap(f, xs)) + Count(p, f(x))
  {
    FlatMapSnoc(f, xs, x);
    CountAppend(p, FlatMap(f, xs), f(x));
  }

  /** Counting distributes over concatenation. */
  lemma {:induction false} CountAppend<T>(p: T -> bool, xs: seq<T>, ys: seq<T>)
    ensures Count(p, xs + ys) == Count(p, xs) + Count(p, ys)
  {
    if |xs| == 0 {
      assert xs + ys == ys;
    } else {
      assert (xs + ys)[1..] == xs[1..] + ys;
      CountAppend(p, xs[1..], ys);
    }
  }

  /** The indicator of `p` at `x`. */
  function Ind<T>(p: T -> bool, x: T): nat {
    if p(x) then 1 else 0
  }

  lemma CountThree<T>(p: T -> bool, a: T, b: T, c: T)
    ensures Count(p, [a, b, c]) == Ind(p, a) + Ind(p, b) + Ind(p, c)
  {
    assert [a, b, c][1..] == [b, c];
    assert [b, c][1..] == [c];
    assert [c][1..] == [];
    assert Count(p, [c]) == Ind(p, c);
    assert Count(p, [b, c]) == Ind(p, b) + Count(p, [c]);
  }

  lemma CountFour<T>(p: T -> bool, a: T, b: T, c: T, d: T)
    ensures Count(p, [a, b, c, d]) == Ind(p, a) + Ind(p, b) + Ind(p, c) + Ind(p, d)
  {
    assert [a, b, c, d][1..] == [b, c, d];
    CountThree(p, b, c, d);
  }

  /** The last element. */
  function Last<T>(xs: seq<T>): T
    requires |xs| > 0
  {
    xs[|xs| - 1]
  }
}

=== FILE: slack_parser.dfy ===
/** The Slack-export parser: raw lines in, `{userId, contents}` records out.
    Lines are trimmed and blank ones dropped, channel join/leave notices are
    removed, and each remaining message yields a record when it carries a
    numeric `User ID:` and a `제보 내용:` ... `첨부 파일:` report span. */
module SlackParser {
  import opened Options
  import opened Seqs
  import opened Text

  /** One parsed report: the dictionary `{"userId": ..., "contents": ...}`. */
  datatype ParsedMessage = ParsedMessage(userId: string, contents: string)

  // ---------------------------------------------------------------------
  // Trimming and blank-line removal
  // ---------------------------------------------------------------------

  /** The output of one raw line under `[msg.strip() for msg in raw if msg.strip()]`. */
  function CleanLine(raw: string): seq<string> {
    var m := Strip(raw);
    if m == "" then [] else [m]
  }

  /** Every raw line stripped, blank ones dropped, order kept. */
  function CleanLines(raw: seq<string>): (messages: seq<string>)
    ensures |messages| <= |raw|
    ensures messages == [] <==> forall k :: 0 <= k < |raw| ==> AllSpace(raw[k])
    ensures forall m :: m in messages ==> m != "" && m == Strip(m)
  {
    FlatMapAtMostOne(CleanLine, raw);
    CleanLinesFacts(raw);
    FlatMap(CleanLine, raw)
  }

  /** Cleaning keeps the input order: cleaning two batches gives the first
      batch's lines followed by the second's. */
  lemma CleanLinesAppend(xs: seq<string>, ys: seq<string>)
    ensures CleanLines(xs + ys) == CleanLines(xs) + CleanLines(ys)
  {
    FlatMapAppend(CleanLine, xs, ys);
  }

  /** A single line is dropped when it is blank and kept stripped otherwise. */
  lemma CleanLinesSingle(line: string)
    ensures CleanLines([line]) == (if Strip(line) == "" then [] else [Strip(line)])
  {
    assert FlatMap(CleanLine, [line]) == CleanLine(line) + FlatMap(CleanLine, []);
  }

  lemma CleanLinesFacts(raw: seq<string>)
    ensures FlatMap(CleanLine, raw) == [] <==> forall k :: 0 <= k < |raw| ==> AllSpace(raw[k])
    ensures forall m :: m in FlatMap(CleanLine, raw) ==> m != "" && m == Strip(m)
  {
    FlatMapEmpty(CleanLine, raw);
    forall m | m in FlatMap(CleanLine, raw)
      ensures m != "" && m == Strip(m)
    {
      CleanedLine(raw, m);
    }
  }

  lemma CleanedLine(raw: seq<string>, m: string)
    requires m in FlatMap(CleanLine, raw)
    ensures m != "" && m == Strip(m)
  {
    var k := FlatMapSource(CleanLine, raw, m);
    CleanLineOutput(raw[k], m);
  }

  lemma CleanLineOutput(line: string, m: string)
    requires m in CleanLine(line)
    ensures m != "" && m == Strip(m)
  {
    StripIdempotent(line);
  }

  /** Stripping an already stripped string changes nothing. */
  lemma StripIdempotent(s: string)
    ensures Strip(Strip(s)) == Strip(s)
  {
  }

  // ---------------------------------------------------------------------
  // Channel join/leave notices
  // ---------------------------------------------------------------------

  /** The ten join/leave phrases.  Each source pattern is `.*phrase.*`, which
      `re.search` matches exactly when the phrase occurs in the message. */
  const StatusPhrases: seq<string> := [
    "에서 나갔습니다",
    "님이 채널을 떠남",
    "님이 채널에 참여",
    "님이 들어왔습니다",
    "님이 채널을 나갔습니다",
    "님이 채널에서 나갔습니다",
    "joined the channel",
    "left the channel",
    "has joined",
    "has left"
  ]

  /** Case-insensitive occurrence of `phrase` in `message`. */
  predicate MatchesPhrase(message: string, phrase: string) {
    Contains(Lower(message), Lower(phrase))
  }

  predicate IsStatusMessage(message: string) {
    exists j :: 0 <= j < |StatusPhrases| && MatchesPhrase(message, StatusPhrases[j])
  }

  function KeepIfNotStatus(message: string): seq<string> {
    if IsStatusMessage(message) then [] else [message]
  }

  /** The messages that are not join/leave notices, in their original order. */
  function NonStatus(messages: seq<string>): (kept: seq<string>)
    ensures |kept| <= |messages|
    ensures forall m :: m in kept <==> m in messages && !IsStatusMessage(m)
  {
    FlatMapAtMostOne(KeepIfNotStatus, messages);
    forall m ensures m in FlatMap(KeepIfNotStatus, messages) <==> m in messages && !IsStatusMessage(m) {
      FlatMapMembership(KeepIfNotStatus, messages, m);
    }
    FlatMap(KeepIfNotStatus, messages)
  }

  /** Filtering keeps the input order: filtering two batches gives the first
      batch's survivors followed by the second's. */
  lemma NonStatusAppend(xs: seq<string>, ys: seq<string>)
    ensures NonStatus(xs + ys) == NonStatus(xs) + NonStatus(ys)
  {
    FlatMapAppend(KeepIfNotStatus, xs, ys);
  }

  /** A single message is dropped exactly when it is a join/leave notice. */
  lemma NonStatusSingle(message: string)
    ensures NonStatus([message]) == (if IsStatusMessage(message) then [] else [message])
  {
    assert FlatMap(KeepIfNotStatus, [message]) == KeepIfNotStatus(message) + FlatMap(KeepIfNotStatus, []);
  }

  /** The inner loop of `remove_channel_status_messages`: try the phrases in
      order and stop at the first that matches. */
  method CheckStatusMessage(message: string) returns (isStatus: bool)
    ensures isStatus == IsStatusMessage(message)
  {
    isStatus := false;
    var j := 0;
    while j < |StatusPhrases|
      invariant j <= |StatusPhrases|
      invariant forall k :: 0 <= k < j ==> !MatchesPhrase(message, StatusPhrases[k])
    {
      if MatchesPhrase(message, StatusPhrases[j]) {
        isStatus := true;
        return;
      }
      j := j + 1;
    }
  }

  /** `remove_channel_status_messages`: keep each message that no phrase
      matches, in order. */
  method RemoveChannelStatusMessages(messages: seq<string>) returns (filtered: seq<string>)
    ensures filtered == NonStatus(messages)
    ensures forall m :: m in filtered ==> !IsStatusMessage(m)
  {
    filtered := [];
    var i := 0;
    while i < |messages|
      invariant i <= |messages|
      invariant filtered == FlatMap(KeepIfNotStatus, messages[..i])
    {
      var isStatus := CheckStatusMessage(messages[i]);
      if !isStatus {
        filtered := filtered + [messages[i]];
      }
      FlatMapPrefix(KeepIfNotStatus, messages, i);
      i := i + 1;
    }
    assert messages[..i] == messages;
  }

  // ---------------------------------------------------------------------
  // User ID and report extraction
  // ---------------------------------------------------------------------

  const UserIdLabel: string := "User ID:"
  const ReportLabel: string := "제보 내용:"
  const AttachmentLabel: string := "첨부 파일:"

  /** Where `\d+` would start after the `User ID:` label at `p` and `\s*`. */
  function DigitStart(s: string, p: nat): (d: nat)
    requires p + |UserIdLabel| <= |s|
    ensures p + |UserIdLabel| <= d <= |s|
    ensures AllSpace(s[p + |UserIdLabel|..d])
    ensures d < |s| ==> !IsSpace(s[d])
  {
    var b := p + |UserIdLabel|;
    var n := LeadingSpaces(s[b..]);
    assert s[b..b + n] == s[b..][..n];
    b + n
  }

  /** `User ID:\s*(\d+)` matches at `p`. */
  predicate UserIdMatchAt(s: string, p: nat) {
    IsAt(s, UserIdLabel, p) && DigitStart(s, p) < |s| && IsDigit(s[DigitStart(s, p)])
  }

  /** The leftmost position at or after `from` where the user-id pattern matches. */
  function FirstUserIdMatch(s: string, from: nat): (r: Option<nat>)
    ensures r.Some? ==> from <= r.value && UserIdMatchAt(s, r.value)
    ensures r.Some? ==> forall k :: from <= k < r.value ==> !UserIdMatchAt(s, k)
    ensures r.None? <==> forall k :: from <= k ==> !UserIdMatchAt(s, k)
    decreases |s| - from
  {
    if from + |UserIdLabel| > |s| then None
    else if UserIdMatchAt(s, from) then Some(from)
    else FirstUserIdMatch(s, from + 1)
  }

  /** The greedy `\d+` at the start of `s`: its longest all-digit prefix. */
  function DigitRun(s: string): (r: string)
    ensures |r| <= |s| && r == s[..|r|]
    ensures AllDigits(r)
    ensures |r| < |s| ==> !IsDigit(s[|r|])
    ensures |s| > 0 && IsDigit(s[0]) ==> r != ""
  {
    if |s| == 0 || !IsDigit(s[0]) then ""
    else
      var r := [s[0]] + DigitRun(s[1..]);
      assert forall k :: 1 <= k < |r| ==> r[k] == s[1..][k - 1];
      r
  }

  /** The user-id match starting at `p` captures `id`. */
  predicate CapturesUserId(s: string, p: nat, id: string) {
    UserIdMatchAt(s, p) && id == DigitRun(s[DigitStart(s, p)..])
  }

  /** The id captured by the leftmost user-id match, or `None` when
      `User ID:\s*(\d+)` does not match anywhere. */
  function UserIdOf(message: string): (r: Option<string>)
    ensures r.None? <==> forall p :: !UserIdMatchAt(message, p)
    ensures r.Some? ==> exists p: nat :: CapturesUserId(message, p, r.value)
                                    && forall k :: 0 <= k < p ==> !UserIdMatchAt(message, k)
    ensures r.Some? ==> r.value != "" && AllDigits(r.value)
  {
    match FirstUserIdMatch(message, 0)
    case None => None
    case Some(p) =>
      var id := DigitRun(message[DigitStart(message, p)..]);
      assert CapturesUserId(message, p, id);
      Some(id)
  }

  /** `p` is the first report label and `q` the first attachment label after
      it: the span `제보 내용:\s*(.*?)\s*첨부 파일:` covers `s[p..q + |AttachmentLabel|]`. */
  predicate ReportSpan(s: string, p: nat, q: nat) {
    && FindFrom(s, ReportLabel, 0) == Some(p)
    && FindFrom(s, AttachmentLabel, p + |ReportLabel|) == Some(q)
  }

  /** The text the report span captures, stripped, or `None` when there is no span. */
  function ReportContents(message: string): (r: Option<string>)
    ensures r.None? <==> forall p: nat, q: nat :: !ReportSpan(message, p, q)
    ensures r.Some? ==> exists p: nat, q: nat :: ReportSpan(message, p, q)
                                               && r.value == Strip(message[p + |ReportLabel|..q])
  {
    match FindFrom(message, ReportLabel, 0)
    case None => None
    case Some(a) =>
      match FindFrom(message, AttachmentLabel, a + |ReportLabel|)
      case None => None
      case Some(q) =>
        assert ReportSpan(message, a, q);
        Some(Strip(message[a + |ReportLabel|..q]))
  }

  /** `extract_user_id_and_contents`; `None` stands for the pair `(None, None)`,
      returned when either pattern fails to match. */
  function ExtractUserIdAndContents(message: string): (r: Option<ParsedMessage>)
    ensures r.None? <==> UserIdOf(message).None? || ReportContents(message).None?
    ensures r.Some? ==> r.value == ParsedMessage(UserIdOf(message).value, ReportContents(message).value)
  {
    match UserIdOf(message)
    case None => None
    case Some(id) =>
      match ReportContents(message)
      case None => None
      case Some(contents) => Some(ParsedMessage(id, contents))
  }

  /** The record one surviving message contributes: kept when both the id and
      the contents are non-empty (`if user_id and contents`). */
  function RecordOf(message: string): seq<ParsedMessage> {
    match ExtractUserIdAndContents(message)
    case Some(pm) => if pm.userId != "" && pm.contents != "" then [pm] else []
    case None => []
  }

  predicate WellFormed(pm: ParsedMessage) {
    pm.userId != "" && AllDigits(pm.userId) && pm.contents != ""
  }

  /** The records extracted from `messages`, in order. */
  function Records(messages: seq<string>): (records: seq<ParsedMessage>)
    ensures |records| <= |messages|
    ensures forall k :: 0 <= k < |records| ==> WellFormed(records[k])
  {
    FlatMapAtMostOne(RecordOf, messages);
    forall k | 0 <= k < |FlatMap(RecordOf, messages)|
      ensures WellFormed(FlatMap(RecordOf, messages)[k])
    {
      var pm := FlatMap(RecordOf, messages)[k];
      FlatMapMembership(RecordOf, messages, pm);
    }
    FlatMap(RecordOf, messages)
  }

  /** `parse_slack_messages`. */
  method ParseSlackMessages(rawMessages: seq<string>) returns (parsed: seq<ParsedMessage>)
    ensures (forall k :: 0 <= k < |rawMessages| ==> AllSpace(rawMessages[k])) ==> parsed == []
    ensures parsed == Records(NonStatus(CleanLines(rawMessages)))
    ensures |parsed| <= |NonStatus(CleanLines(rawMessages))|
    ensures forall k :: 0 <= k < |parsed| ==> WellFormed(parsed[k])
  {
    var messages := CleanLines(rawMessages);
    if |messages| == 0 {
      return [];
    }
    messages := RemoveChannelStatusMessages(messages);
    parsed := ExtractAll(messages);
  }

  /** The extraction loop of `parse_slack_messages`: each surviving message
      contributes its `RecordOf`, in order. */
  method ExtractAll(messages: seq<string>) returns (parsed: seq<ParsedMessage>)
    ensures parsed == Records(messages)
  {
    parsed := ConcatMap(RecordOf, messages);
  }

  /** Records come out in input order: parsing two batches of surviving
      messages gives the first batch's records followed by the second's. */
  lemma RecordsAppend(xs: seq<string>, ys: seq<string>)
    ensures Records(xs + ys) == Records(xs) + Records(ys)
  {
    FlatMapAppend(RecordOf, xs, ys);
  }

  /** A surviving message contributes exactly one record when it has a user id
      and a report span with non-empty contents, and none otherwise; that
      record pairs the captured id with the stripped report contents. */
  lemma RecordsSingle(message: string)
    ensures |Records([message])| <= 1
    ensures |Records([message])| == 1 <==>
              UserIdOf(message).Some? && ReportContents(message).Some?
              && ReportContents(message).value != ""
    ensures Records([message])
            == if UserIdOf(message).Some? && ReportContents(message).Some? && ReportContents(message).value != ""
               then [ParsedMessage(UserIdOf(message).value, ReportContents(message).value)]
               else []
  {
    assert FlatMap(RecordOf, [message]) == RecordOf(message) + FlatMap(RecordOf, []);
  }

  /** `generate_filename`: a non-empty output path is returned unchanged;
      otherwise the name is built from the timestamp. */
  function GenerateFilename(outputPath: Option<string>, timestamp: string): (name: string)
    ensures outputPath.Some? && outputPath.value != "" ==> name == outputPath.value
    ensures outputPath.None? || outputPath.value == "" ==>
              |timestamp| <= |name| && name[..|timestamp|] == timestamp
              && name[|timestamp|..] == "-parsed-list.json"
  {
    if outputPath.Some? && outputPath.value != "" then outputPath.value
    else timestamp + "-parsed-list.json"
  }
}

=== FILE: text.dfy ===
/** Character classes and string searches that the Python code gets from
    `str.strip`, `re.search` and `re.IGNORECASE`.  Whitespace and digits are
    the ASCII classes; lower-casing is ASCII only. */
module Text {
  import opened Options

  /** The whitespace class `\s` matches under `re.ASCII`.  Python's default
      `\s` and `str.strip()` also take the separators `\x1c`-`\x1f` and the
      Unicode spaces. */
  predicate IsSpace(c: char) {
    c == ' ' || c == '\t' || c == '\n' || c == '\r' || c == '\U{0B}' || c == '\U{0C}'
  }

  /** The characters matched by `\d`. */
  predicate IsDigit(c: char) {
    '0' <= c <= '9'
  }

  predicate AllSpace(s: string) {
    forall k :: 0 <= k < |s| ==> IsSpace(s[k])
  }

  predicate AllDigits(s: string) {
    forall k :: 0 <= k < |s| ==> IsDigit(s[k])
  }

  /** Length of the whitespace run at the start of `s`. */
  function LeadingSpaces(s: string): (n: nat)
    ensures n <= |s|
    ensures AllSpace(s[..n])
    ensures n < |s| ==> !IsSpace(s[n])
  {
    if |s| == 0 || !IsSpace(s[0]) then 0
    else
      var n := 1 + LeadingSpaces(s[1..]);
      assert forall k :: 1 <= k < n ==> s[..n][k] == s[1..][..n - 1][k - 1];
      n
  }

  /** Length of the whitespace run at the end of `s`. */
  function TrailingSpaces(s: string): (n: nat)
    ensures n <= |s|
    ensures AllSpace(s[|s| - n..])
    ensures n < |s| ==> !IsSpace(s[|s| - n - 1])
  {
    if |s| == 0 || !IsSpace(s[|s| - 1]) then 0
    else
      var m := TrailingSpaces(s[..|s| - 1]);
      SpaceSuffix(s, m);
      1 + m
  }

  /** A whitespace run ending just before a final whitespace character
      extends to the end. */
  lemma SpaceSuffix(s: string, m: nat)
    requires 0 < |s| && m <= |s| - 1 && IsSpace(s[|s| - 1])
    requires AllSpace(s[..|s| - 1][|s| - 1 - m..])
    ensures AllSpace(s[|s| - (m + 1)..])
  {
  }

  /** `str.strip()`: `s` with the whitespace at both ends removed.  The result
      is a slice of `s` that neither starts nor ends with whitespace, and only
      whitespace is cut away around it. */
  function Strip(s: string): (r: string)
    ensures r == "" <==> AllSpace(s)
    ensures r != "" ==> !IsSpace(r[0]) && !IsSpace(r[|r| - 1])
    ensures exists i :: 0 <= i <= |s| - |r| && r == s[i..i + |r|]
                        && AllSpace(s[..i]) && AllSpace(s[i + |r|..])
  {
    var a := LeadingSpaces(s);
    if a == |s| then
      assert s[..a] == s;
      assert s[0..0] == "";
      ""
    else
      var t := TrailingSpaces(s);
      StripSlice(s, a, t);
      s[a..|s| - t]
  }

  /** The slice between a leading whitespace run of length `a` that stops
      short of the end and a trailing run of length `t`. */
  lemma StripSlice(s: string, a: nat, t: nat)
    requires a < |s| && AllSpace(s[..a]) && !IsSpace(s[a])
    requires t <= |s| && AllSpace(s[|s| - t..]) && (t < |s| ==> !IsSpace(s[|s| - t - 1]))
    ensures a < |s| - t
    ensures !IsSpace(s[a..|s| - t][0]) && !IsSpace(s[a..|s| - t][|s| - t - a - 1])
    ensures !AllSpace(s)
    ensures AllSpace(s[a + (|s| - t - a)..])
  {
    assert s[a..|s| - t][0] == s[a];
    assert s[a..|s| - t][|s| - t - a - 1] == s[|s| - t - 1];
    assert a + (|s| - t - a) == |s| - t;
  }

  /** True when `pat` occurs in `s` starting at index `i`. */
  predicate IsAt(s: string, pat: string, i: nat) {
    i + |pat| <= |s| && s[i..i + |pat|] == pat
  }

  /** `s.find(pat, from)`: the first index at or after `from` where `pat` occurs. */
  function FindFrom(s: string, pat: string, from: nat): (r: Option<nat>)
    ensures r.Some? ==> from <= r.value && IsAt(s, pat, r.value)
    ensures r.Some? ==> forall k :: from <= k < r.value ==> !IsAt(s, pat, k)
    ensures r.None? <==> forall k :: from <= k ==> !IsAt(s, pat, k)
    decreases |s| - from
  {
    if from + |pat| > |s| then None
    else if IsAt(s, pat, from) then Some(from)
    else FindFrom(s, pat, from + 1)
  }

  /** The first occurrence at or after `from` is the one at `j` when none lies between. */
  lemma FindFromWitness(s: string, pat: string, from: nat, j: nat)
    requires from <= j && IsAt(s, pat, j)
    requires forall k :: from <= k < j ==> !IsAt(s, pat, k)
    ensures FindFrom(s, pat, from) == Some(j)
  {
  }

  predicate Contains(s: string, pat: string) {
    FindFrom(s, pat, 0).Some?
  }

  function LowerChar(c: char): char {
    if 'A' <= c <= 'Z' then (c as int - 'A' as int + 'a' as int) as char else c
  }

  /** ASCII lower-casing, the comparison `re.IGNORECASE` makes for these patterns. */
  function Lower(s: string): (r: string)
    ensures |r| == |s|
    ensures forall k :: 0 <= k < |s| ==> r[k] == LowerChar(s[k])
  {
    seq(|s|, k requires 0 <= k < |s| => LowerChar(s[k]))
  }
}
